=== FILE: README.md ===
# Tarkus install / remove / update engine in Dafny

Tarkus is a plugin manager for IDA. Its engine resolves a plugin reference in three ways: a manifest path on disk, a name in a git-hosted registry, or a git URL. It selects the plugin's files and refuses to overwrite anything already in IDA's `plugins` directory. It records the plugin in a two-layer YAML configuration and copies the files. Later it can remove or update the plugin.

This project models that engine as pure transitions over an immutable world:

- `Config` is the store. A base layer and a user layer are merged key by key into the live view the process works on. Leaving a transaction writes the whole live view into the user layer.
- `Disk` holds files with contents, plus directories. It defines the two loops that touch them: `os.unlink` over a plugin's recorded files and `shutil.copy` over the copy map.
- `Staging` turns a manifest and the walk of its root into the copy map. It also finds the first destination that already exists.
- `Tarkus` has the operations: `Init`, `Repo`, `Install` (with `InstallFromRepo`, `InstallFromGit` and `InstallPlugin` = `Validate` then `Apply`), `Remove` and `Update`. Each one returns a `Step`: the world after the call, `Done` or the error, and the URLs it tried to clone.
- `Properties` relates the operations to each other.
- `Findings` holds the one defect found, in its as-written and corrected forms.

The outside world is given as data, an `Env`:

- the references that exist as local paths, with the manifest and tree they hold;
- the URLs whose clone succeeds, with the `plugin.yml` and `repo.yml` a clone contains;
- and, as a parameter of `Install`, `Update` and the clone steps, the fresh temporary directory the plugin's clone goes into. Its `plugin.yml` is the path the record keeps.

Nothing in the source rolls back, so a failed step still returns the world as the failure left it. `Config.__exit__` persists on every exit. When an unlink in `remove` fails, the files unlinked before it stay gone. An install records the plugin before it copies.

Behaviour of the code that the model keeps as written:

- The copy loop does not create sub-directories. A plugin file below the root's top level therefore fails to copy unless that directory already exists under `plugins`. By then the record is persisted (`Tarkus.Apply`, `Properties.FailedCopyBlocksRemove`).
- `remove` stops with an OS error at the first recorded file that is missing. The earlier files are gone and the entry stays, so a plugin whose copy failed cannot be removed.
- `update` of a name that is not installed lets a bare `KeyError` escape (`UnknownPlugin`). It does not raise `PluginNotFoundError`.
- Collisions are checked against the disk only, not against other plugins' records.
- A failure of the registry clone is final. Only a name missing from the registry index falls through to a direct clone.
- The live view keeps every base key. Persisting it therefore reloads to the same view (`Config.ReloadAfterPersist`). The user file, however, then holds base values too.

## Model

| member | source | states |
|---|---|---|
| Config.Merge | tarkus/tarkus.py:71-84 | user entries shadow base entries key by key, keys are the union; a user layer `dict.update` rejects leaves exactly the base layer |
| Config.ReloadAfterPersist | tarkus/tarkus.py:98-101 | writing the whole live view into the user layer and reloading gives the same live view, provided it holds every base key |
| Tarkus.Persist | tarkus/tarkus.py:98-101 | leaving a transaction writes the whole live view into the user layer and changes nothing else; a coherent world stays coherent, since the written view reloads to itself |
| Tarkus.Load | tarkus/tarkus.py:116-119 | the process starts with the given layers and disk, and its live view is their merge, so every base key is present and user entries shadow base ones |
| Tarkus.PluginsPath | tarkus/tarkus.py:125-127 | the plugins directory is `ida_path` joined with `plugins`; an absent or non-text `ida_path` is an error |
| Tarkus.Init | tarkus/tarkus.py:129-131 | the live view changes in `ida_path` alone, so the plugins directory follows it; no other key is added or changed, the base layer and the disk are untouched, and the live view is persisted |
| Tarkus.Repo | tarkus/tarkus.py:133-135 | the live view changes in `repo_path` alone; the plugins table, the plugins directory, the base layer and the disk are untouched, and the live view is persisted |
| Staging.Select | tarkus/tarkus.py:196-202 | a walked file is picked exactly when its name ends in `.py` or its root-relative path is listed in `include` |
| Staging.SelectKeepsDistinct | tarkus/tarkus.py:196-202 | picking files from a walk that lists each file once yields each root-relative path once |
| Staging.CopyMap | tarkus/tarkus.py:204-208 | one entry per picked file, each destination is the plugins directory joined with the root-relative path, and destinations are pairwise distinct |
| Staging.FirstCollision | tarkus/tarkus.py:210-214 | finds an existing destination exactly when there is one, and it is the first in copy-map order |
| Tarkus.Validate | tarkus/tarkus.py:191-214 | an unusable `plugins` setting, an already-installed name, a missing `ida_path` (only when files are picked) and an existing destination are each reported, the last naming the path relative to the plugins directory; acceptance yields a collision-free copy map covering every picked file |
| Tarkus.Apply | tarkus/tarkus.py:216-228 | records `{path, files = all destinations, name, update_url}`, leaves other entries and settings alone, persists before copying; succeeds exactly when every destination's directory exists, and then each destination holds its source's bytes; existing files are never touched, and every file created, even when a copy fails, is a recorded destination |
| Tarkus.InstallPlugin | tarkus/tarkus.py:186-232 | a rejected install changes nothing; an accepted one persists the record even when a copy then fails (no rollback), and creates no file the record does not list; an accepted install can fail only with the OS error of a destination whose directory is missing; success means every destination holds its source |
| Tarkus.InstallFromGit | tarkus/tarkus.py:137-148 | a failed clone is `FailedCloningRepo(url)` with nothing changed; otherwise the `plugin.yml` in the clone's temporary directory is installed, and its path is recorded with `url` as update URL |
| Tarkus.InstallFromRepo | tarkus/tarkus.py:150-168 | the registry is cloned first; a failed clone is `FailedCloningRepo(repo_path)`; an unreadable `repo.yml` is final with nothing changed; a name missing from a readable index is `PluginNotInRepo` with nothing changed, and that error arises only then; a hit installs from the mapped URL |
| Tarkus.Install | tarkus/tarkus.py:170-184 | a local path installs with no clone and no update URL; otherwise the registry is consulted first, a failed registry clone is final, an unreadable index is final, the direct clone of the reference happens exactly when the readable index lacks the name (and then the result is that clone's install), and `PluginNotInRepo` never reaches the caller |
| Disk.CopyAll | tarkus/tarkus.py:226-228 | all copies succeed exactly when every destination's directory exists, adding exactly the destinations; files that are not destinations are untouched; a failure stops at the first entry whose directory is missing, with exactly the entries before it copied |
| Disk.CopyAllDistinct | tarkus/tarkus.py:226-228 | with pairwise distinct destinations, a successful copy loop leaves each destination holding its source's bytes, and a failed destination that was absent stays absent |
| Disk.UnlinkAll | tarkus/tarkus.py:243-244 | succeeds exactly when the paths are distinct existing files, and then removes exactly them; otherwise it stops at the first path that is not a file, with exactly the paths before it removed and the rest kept |
| Tarkus.Remove | tarkus/tarkus.py:239-250 | an absent name is `PluginNotFoundError` with nothing changed; success deletes exactly the recorded files and only that entry, and persists; a missing recorded file stops it with exactly the recorded files before it removed and the entry kept |
| Tarkus.Update | tarkus/tarkus.py:255-260 | an unknown name is a bare `KeyError`; a falsy update URL is a no-op; otherwise it is `remove` followed, if that succeeded, by `install` of the update URL |
| Properties.InstallThenRemoveRestores | tarkus/tarkus.py:216-247 | removing a freshly installed plugin restores the plugin directory and the live configuration |
| Properties.InstallTwiceFails | tarkus/tarkus.py:191-193 | installing an installed plugin again is `PluginAlreadyInstalledError` and changes nothing |
| Properties.RemoveTwiceFails | tarkus/tarkus.py:239-250 | after a successful remove, removing again is `PluginNotFoundError` and changes nothing |
| Properties.FailedCopyBlocksRemove | tarkus/tarkus.py:217-244 | an install whose copy failed leaves a record that `remove` cannot clear |
| Properties.UpdateOfLocalInstallIsNoop | tarkus/tarkus.py:255-260 | a plugin installed from a local manifest has no update URL, so updating it does nothing |
| Properties.InstallOverwritesUserLayer | tarkus/tarkus.py:98-101 | an accepted install's result does not depend on the user layer it started from |
| Properties.ManifestPathOnlyInRecord | tarkus/tarkus.py:186-228 | the manifest's path affects only the recorded `path`: the outcome, the files and every other record field are the same |
| Properties.UpdateFromUnchangedUpstream | tarkus/tarkus.py:137-148 | updating a plugin cloned from a URL whose upstream is unchanged (and not a registry name) is a fresh install from the new clone: same files, same record except the `path` of the new clone's manifest; with the same temporary directory, exactly where the install ended |
| Findings.InstallPluginAsWritten | tarkus/tarkus.py:230-232 | the install as written fails with the whole install already done when `requirements` is null, and otherwise behaves as the corrected install |
| Findings.NullRequirementsFailAsWritten | tarkus/tarkus.py:230-232 | on a one-file plugin with `requirements: null` the as-written install reports failure while the corrected one succeeds with the same world |
| Findings.RequirementsDoNotAffectInstall | tarkus/tarkus.py:230-232 | the corrected install's result does not depend on `requirements` |

## Left out

- The dependency install (`install_requirements`, pip) is modelled as a step with no effect. Its failures are swallowed by the source.
- Git and `remove_dir` (including its chmod-and-retry) are not modelled. A clone either succeeds, yielding the files an `Env` lists, or fails. The source's leak of a temporary directory when a clone or an install fails is not modelled.
- Tarkus.InstallFromGit: the directory `mkdtemp` returns for the plugin's clone is a parameter, and the model does not demand that successive calls get different ones. The registry clone's directory is not modelled, since nothing from it is kept. The recorded manifest path names a file that `remove_dir` deletes right after the install; the model does not track that it dangles.
- YAML parsing is not modelled. Settings and manifests arrive parsed. A user file that YAML cannot parse raises in the source rather than falling back; only a parsed non-mapping (an empty file loads as null) falls back to the base layer.
- Config.Merge: the base layer is always a parsed mapping. The source turns an empty base file into an empty configuration, because its failed `update` is swallowed too. A user layer that is a list of key/value pairs is also not modelled; `dict.update` accepts such a list, possibly only in part.
- `AttrMap` attribute access is not modelled. A missing or wrongly typed setting is the single error `BadSetting`. A manifest missing `name`, `root` or `include` is not modelled: every manifest here has those fields.
- `os.walk` and `os.path` are not modelled. A walk is a given list of root-relative paths without repeats. Paths are segment sequences, with no normalisation.
- Python 2 dictionaries iterate in no fixed order. The copy map, the collision check, the copy loop and `files` all follow walk order, so which colliding or failing destination gets reported is this model's choice.
- `freeze` prints to standard output and is not modelled. `main` with its docopt dispatch, and setup.py, are not modelled either: they are CLI plumbing and packaging.
- `create_plugin_definition` is file output and is not modelled. Its `PLUGIN_TEMPLATE.format(name)` passes the name positionally to a named field, so the format always raises `KeyError`. When `path` does not exist, the function first creates it as a directory, and then opening that directory for writing fails before the format runs. When `path` is an existing file, opening it truncates it and then the format raises, leaving it empty.
- Tarkus.Apply: its precondition (destinations absent as files and as directories, and pairwise distinct) is what `Tarkus.Validate` establishes. It is not a demand the source makes of callers, and `Tarkus.InstallPlugin` is the member that models the full step.

## Findings

| source | as written | input that shows it | evidently intended | confidence | as-written member | corrected member |
|---|---|---|---|---|---|---|
| tarkus/tarkus.py:230-232 | `os.path.join(plugin.root, plugin.requirements)` runs after the record is persisted and the files are copied, and raises when `requirements` is null | a one-file plugin whose manifest says `requirements: null`, the default the manifest template at tarkus/tarkus.py:26-29 documents | a plugin without requirements skips the dependency install and the install reports success | high; not executed | Findings.InstallPluginAsWritten (shown by Findings.NullRequirementsFailAsWritten) | Tarkus.InstallPlugin (Findings.RequirementsDoNotAffectInstall) |

=== FILE: config.dfy ===
/** The two-layer configuration store: a base layer shipped with the tool and
    a user layer persisted per user, merged into one live view. */
module Config {
  import opened Wrappers
  import opened Disk

  /** What `plugins[name]` records about an installed plugin. */
  datatype PluginRecord = PluginRecord(
    path: string,              // the manifest it was installed from
    files: seq<Path>,          // every destination written into the plugin directory
    name: string,
    updateUrl: Option<string>) // the clone URL; None for a local manifest

  /** The parsed setting values the engine reads. `Null` stands for YAML null
      and for every value of a shape the engine cannot use. */
  datatype Value = Text(text: string) | Table(plugins: map<string, PluginRecord>) | Null

  type Settings = map<string, Value>

  /** The user file as loaded: a mapping, or anything `dict.update` rejects
      (an empty file loads as null). */
  datatype Layer = Mapping(entries: Settings) | NotMapping

  const IdaPathKey: string := "ida_path"
  const RepoPathKey: string := "repo_path"
  const PluginsKey: string := "plugins"

  /** The live view: user entries shadow base entries key by key; a user
      layer that cannot be merged leaves the base layer alone. */
  function Merge(base: Settings, user: Layer): (merged: Settings)
    ensures user.NotMapping? ==> merged == base
    ensures user.Mapping? ==> merged.Keys == base.Keys + user.entries.Keys
    ensures user.Mapping? ==> forall k :: k in user.entries ==> merged[k] == user.entries[k]
    ensures forall k :: k in base && (user.NotMapping? || k !in user.entries) ==> merged[k] == base[k]
  {
    match user
    case Mapping(entries) => base + entries
    case NotMapping => base
  }

  /** A text setting, if the key is present and holds text. */
  function TextSetting(s: Settings, key: string): Option<string> {
    if key in s && s[key].Text? then Some(s[key].text) else None
  }

  /** The installed-plugins table, if `plugins` is present and a mapping. */
  function PluginTable(s: Settings): Option<map<string, PluginRecord>> {
    if PluginsKey in s && s[PluginsKey].Table? then Some(s[PluginsKey].plugins) else None
  }

  function WithTable(s: Settings, table: map<string, PluginRecord>): Settings {
    s[PluginsKey := Table(table)]
  }

  /** Persisting the live view writes ALL of it into the user layer; reading
      the store back afterwards yields the same view, because the live view
      always holds every base key. */
  lemma ReloadAfterPersist(base: Settings, live: Settings)
    requires base.Keys <= live.Keys
    ensures Merge(base, Mapping(live)) == live
  {
  }
}

=== FILE: disk.dfy ===
/** The host filesystem as the engine touches it: files with contents, and
    directories. A path is a sequence of segments; `os.path` normalisation is
    not modelled, so two paths name the same file exactly when their segments
    agree. */
module Disk {
  import opened Wrappers

  type Path = seq<string>
  type Bytes = seq<bv8>
  type Files = map<Path, Bytes>

  /** A file of a plugin's source tree: its path relative to the plugin root
      and its contents. */
  datatype SourceFile = SourceFile(rel: Path, content: Bytes)

  /** One entry of an install's copy map. */
  datatype Copy = Copy(source: SourceFile, dest: Path)

  function Parent(p: Path): Path {
    if p == [] then [] else p[..|p| - 1]
  }

  function FileName(p: Path): string {
    if p == [] then "" else p[|p| - 1]
  }

  function Elems<T>(s: seq<T>): set<T> {
    set x | x in s
  }

  predicate AllDistinct<T(==)>(s: seq<T>) {
    forall i, j :: 0 <= i < j < |s| ==> s[i] != s[j]
  }

  function Dests(copies: seq<Copy>): seq<Path> {
    seq(|copies|, i requires 0 <= i < |copies| => copies[i].dest)
  }

  /** The unlink loop stopped at `paths[k]`: the paths before it were
      distinct existing files and are gone, `paths[k]` is not a file, and
      nothing else changed. */
  predicate UnlinkStoppedAt(files: Files, paths: seq<Path>, k: int, after: Files) {
    && 0 <= k < |paths|
    && AllDistinct(paths[..k]) && Elems(paths[..k]) <= files.Keys
    && paths[k] !in files - Elems(paths[..k])
    && after == files - Elems(paths[..k])
  }

  /** A stop in the tail is a stop one further along the whole list. */
  lemma UnlinkStoppedLater(files: Files, paths: seq<Path>, k: int, after: Files)
    requires |paths| > 0 && paths[0] in files
    requires UnlinkStoppedAt(files - {paths[0]}, paths[1..], k, after)
    ensures UnlinkStoppedAt(files, paths, k + 1, after)
  {
    assert paths[..k + 1] == [paths[0]] + paths[1..][..k];
    assert Elems(paths[..k + 1]) == {paths[0]} + Elems(paths[1..][..k]);
    assert files - Elems(paths[..k + 1]) == (files - {paths[0]}) - Elems(paths[1..][..k]);
  }

  /** `os.unlink` of each path in order. The first path that is not a file
      stops the loop (OSError) and is returned, after the earlier unlinks. */
  function UnlinkAll(files: Files, paths: seq<Path>): (r: (Files, Option<Path>))
    ensures r.1.None? <==> AllDistinct(paths) && Elems(paths) <= files.Keys
    ensures r.1.None? ==> r.0 == files - Elems(paths)
    ensures r.1.Some? ==> r.1.value in paths && r.1.value !in r.0
    // a failure stops at the first path that is not a file, with exactly the paths before it gone
    ensures r.1.Some? ==> exists k :: UnlinkStoppedAt(files, paths, k, r.0) && paths[k] == r.1.value
    ensures r.0.Keys <= files.Keys
    ensures forall p :: p in files && p !in paths ==> p in r.0 && r.0[p] == files[p]
    decreases |paths|
  {
    if paths == [] then (files, None)
    else if paths[0] !in files then
      assert paths[..0] == [];
      assert UnlinkStoppedAt(files, paths, 0, files);
      (files, Some(paths[0]))
    else
      var rest := UnlinkAll(files - {paths[0]}, paths[1..]);
      assert paths == [paths[0]] + paths[1..];
      assert Elems(paths) == {paths[0]} + Elems(paths[1..]);
      if rest.1.Some? then
        var k :| UnlinkStoppedAt(files - {paths[0]}, paths[1..], k, rest.0) && paths[1..][k] == rest.1.value;
        UnlinkStoppedLater(files, paths, k, rest.0);
        rest
      else rest
  }

  /** The copy loop stopped at `copies[k]`: every earlier destination's
      directory exists and was copied into, `copies[k]`'s does not, and no
      other file was created. */
  predicate CopyStoppedAt(files: Files, dirs: set<Path>, copies: seq<Copy>, k: int, after: Files) {
    && 0 <= k < |copies|
    && (forall i :: 0 <= i < k ==> Parent(copies[i].dest) in dirs)
    && Parent(copies[k].dest) !in dirs
    && after.Keys == files.Keys + Elems(Dests(copies[..k]))
  }

  /** A stop in the tail is a stop one further along the whole list. */
  lemma CopyStoppedLater(files: Files, dirs: set<Path>, copies: seq<Copy>, k: int, after: Files)
    requires |copies| > 0 && Parent(copies[0].dest) in dirs
    requires CopyStoppedAt(files[copies[0].dest := copies[0].source.content], dirs, copies[1..], k, after)
    ensures CopyStoppedAt(files, dirs, copies, k + 1, after)
  {
    assert copies[..k + 1] == [copies[0]] + copies[1..][..k];
    assert Dests(copies[..k + 1]) == [copies[0].dest] + Dests(copies[1..][..k]);
    forall i | 0 <= i < k + 1 ensures Parent(copies[i].dest) in dirs {
      if i > 0 { assert copies[i] == copies[1..][i - 1]; }
    }
  }

  /** `shutil.copy` of each copy-map entry in order. A copy lands only in an
      existing directory: the first destination whose parent directory is
      missing stops the loop (IOError) and is returned, after the earlier
      copies. */
  function CopyAll(files: Files, dirs: set<Path>, copies: seq<Copy>): (r: (Files, Option<Path>))
    ensures r.1.None? <==> forall i :: 0 <= i < |copies| ==> Parent(copies[i].dest) in dirs
    ensures r.1.None? ==> r.0.Keys == files.Keys + Elems(Dests(copies))
    ensures r.1.Some? ==> r.1.value in Dests(copies) && Parent(r.1.value) !in dirs
    // a failure stops at the first missing directory, with exactly the entries before it copied
    ensures r.1.Some? ==> exists k :: CopyStoppedAt(files, dirs, copies, k, r.0) && copies[k].dest == r.1.value
    ensures r.0.Keys <= files.Keys + Elems(Dests(copies))
    ensures forall p :: p in files && p !in Dests(copies) ==> p in r.0 && r.0[p] == files[p]
    decreases |copies|
  {
    if copies == [] then (files, None)
    else if Parent(copies[0].dest) !in dirs then
      assert Dests(copies)[0] == copies[0].dest;
      assert Dests(copies[..0]) == [];
      assert CopyStoppedAt(files, dirs, copies, 0, files);
      (files, Some(copies[0].dest))
    else
      var files' := files[copies[0].dest := copies[0].source.content];
      var rest := CopyAll(files', dirs, copies[1..]);
      assert Dests(copies) == [copies[0].dest] + Dests(copies[1..]);
      if rest.1.Some? then
        var k :| CopyStoppedAt(files', dirs, copies[1..], k, rest.0) && copies[1..][k].dest == rest.1.value;
        CopyStoppedLater(files, dirs, copies, k, rest.0);
        rest
      else rest
  }

  /** When no two copies share a destination, each successful copy leaves its
      source's bytes at its destination, and a failed destination that did not
      exist still does not. */
  lemma {:induction false} CopyAllDistinct(files: Files, dirs: set<Path>, copies: seq<Copy>)
    requires AllDistinct(Dests(copies))
    ensures var r := CopyAll(files, dirs, copies);
            && (r.1.None? ==> forall i :: 0 <= i < |copies| ==>
                  copies[i].dest in r.0 && r.0[copies[i].dest] == copies[i].source.content)
            && (r.1.Some? && r.1.value !in files ==> r.1.value !in r.0)
    decreases |copies|
  {
    if copies != [] && Parent(copies[0].dest) in dirs {
      var files' := files[copies[0].dest := copies[0].source.content];
      assert Dests(copies) == [copies[0].dest] + Dests(copies[1..]);
      DistinctSplit(Dests(copies));
      CopyAllDistinct(files', dirs, copies[1..]);
      var r := CopyAll(files', dirs, copies[1..]);
      assert r == CopyAll(files, dirs, copies);
      assert r.1.Some? ==> r.1.value != copies[0].dest;
      forall i | 0 <= i < |copies| && r.1.None?
        ensures copies[i].dest in r.0 && r.0[copies[i].dest] == copies[i].source.content
      {
        if i > 0 { assert copies[i] == copies[1..][i - 1]; }
      }
    }
  }

  /** A sequence without repeats: its head is not in its tail, and its tail
      has no repeats either. */
  lemma DistinctSplit<T>(s: seq<T>)
    requires |s| > 0
    ensures AllDistinct(s) ==> s[0] !in s[1..] && AllDistinct(s[1..])
  {
  }
}

=== FILE: findings.dfy ===
/** A defect of the install as written, and the corrected install the rest of
    the model uses (`Tarkus.InstallPlugin`).

    After copying, the install joins the plugin root with the manifest's
    `requirements` entry to hand the result to pip. With `requirements: null`
    (the default the manifest template documents) the join raises, so an
    install that has already recorded and copied everything reports failure. */
module Findings {
  import opened Wrappers
  import opened Disk
  import opened Staging
  import opened Config
  import opened Tarkus

  /** The install as written: the corrected install, followed by the join that
      raises on a null `requirements`. */
  function InstallPluginAsWritten(w: World, src: PluginSource, manifestPath: string, updateUrl: Option<string>): (s: Step)
    ensures s.world == InstallPlugin(w, src, manifestPath, updateUrl).world && s.clones == []
    ensures s.outcome == Failed(NullRequirements) <==>
              InstallPlugin(w, src, manifestPath, updateUrl).outcome == Done && src.manifest.requirements.None?
    ensures s.outcome != Failed(NullRequirements) ==> s.outcome == InstallPlugin(w, src, manifestPath, updateUrl).outcome
  {
    var installed := InstallPlugin(w, src, manifestPath, updateUrl);
    if installed.outcome.Done? && src.manifest.requirements.None? then
      Step(installed.world, Failed(NullRequirements), [])
    else installed
  }

  const SampleIda: string := "C:\\IDA"
  const SampleSettings: Settings := map[IdaPathKey := Text(SampleIda), PluginsKey := Table(map[])]
  const SampleWorld: World := World(SampleSettings, NotMapping, SampleSettings, map[], {PluginsDir(SampleIda)})
  const SampleSource: PluginSource :=
    PluginSource(Manifest("demo", [], None), [SourceFile(["demo.py"], [])])

  /** The discrepancy on one input: a one-file plugin with `requirements: null`
      into an empty plugins directory. As written the install records the
      plugin and copies its file, then reports failure; corrected, it reports
      success with the same resulting world. */
  lemma NullRequirementsFailAsWritten()
    ensures var asWritten := InstallPluginAsWritten(SampleWorld, SampleSource, ManifestFile, None);
            var corrected := InstallPlugin(SampleWorld, SampleSource, ManifestFile, None);
            && asWritten.outcome == Failed(NullRequirements)
            && corrected.outcome == Done
            && asWritten.world == corrected.world
            && PluginTable(asWritten.world.live).Some?
            && "demo" in PluginTable(asWritten.world.live).value
            && PluginsDir(SampleIda) + ["demo.py"] in asWritten.world.files
  {
    var only := SampleSource.walk[0];
    var dest := PluginsDir(SampleIda) + ["demo.py"];
    assert Wanted(only, []);
    assert Select(SampleSource.walk, []) == [only];
    assert PluginTable(SampleWorld.live) == Some(map[]);
    assert PluginsPath(SampleWorld.live) == Ok(PluginsDir(SampleIda));
    var copies := CopyMap(SampleSource.walk, [], PluginsDir(SampleIda));
    assert copies == [Copy(only, dest)];
    assert Parent(dest) == PluginsDir(SampleIda);
    assert Validate(SampleWorld, SampleSource) == Ok(Plan(map[], copies));
  }

  /** The corrected install does not look at `requirements` at all. */
  lemma RequirementsDoNotAffectInstall(w: World, src: PluginSource, requirements: Option<string>,
                                       manifestPath: string, updateUrl: Option<string>)
    ensures var other := src.(manifest := src.manifest.(requirements := requirements));
            InstallPlugin(w, other, manifestPath, updateUrl) == InstallPlugin(w, src, manifestPath, updateUrl)
  {
    var other := src.(manifest := src.manifest.(requirements := requirements));
    assert Validate(w, other) == Validate(w, src);
  }
}

=== FILE: properties.dfy ===
/** Properties that relate several operations of the engine. */
module Properties {
  import opened Wrappers
  import opened Disk
  import opened Staging
  import opened Config
  import opened Tarkus

  /** Adding new files and then deleting them gives the old files back. */
  lemma AddThenDelete(before: Files, after: Files, added: set<Path>)
    requires added !! before.Keys
    requires after.Keys == before.Keys + added
    requires forall p :: p in before ==> after[p] == before[p]
    ensures after - added == before
  {
  }

  /** Recording a new plugin and then deleting its entry gives the old live
      view back. */
  lemma RecordThenDelete(live: Settings, table: map<string, PluginRecord>, name: string, record: PluginRecord)
    requires PluginTable(live) == Some(table) && name !in table
    ensures WithTable(WithTable(live, table[name := record]), table[name := record] - {name}) == live
  {
    assert table[name := record] - {name} == table;
  }

  /** The destinations of an accepted install did not exist before it. */
  lemma DestinationsAreNew(w: World, src: PluginSource)
    requires Validate(w, src).Ok?
    ensures Elems(Dests(Validate(w, src).value.copies)) !! w.files.Keys
  {
  }

  /** Removing a plugin right after installing it gives back the plugin
      directory and the live configuration as they were; the user layer now
      holds the whole live view. */
  lemma InstallThenRemoveRestores(w: World, src: PluginSource, manifestPath: string, updateUrl: Option<string>)
    requires InstallPlugin(w, src, manifestPath, updateUrl).outcome == Done
    ensures var removed := Remove(InstallPlugin(w, src, manifestPath, updateUrl).world, src.manifest.name);
            && removed.outcome == Done
            && removed.world.files == w.files
            && removed.world.dirs == w.dirs
            && removed.world.live == w.live
            && removed.world.user == Mapping(w.live)
  {
    var name := src.manifest.name;
    var installed := InstallPlugin(w, src, manifestPath, updateUrl).world;
    var plan := Validate(w, src).value;
    var dests := Dests(plan.copies);
    var record := PluginRecord(manifestPath, dests, name, updateUrl);
    assert PluginTable(installed.live) == Some(plan.table[name := record]);
    DestinationsAreNew(w, src);
    AddThenDelete(w.files, installed.files, Elems(dests));
    RecordThenDelete(w.live, plan.table, name, record);
  }

  /** A second install of a plugin that is installed is refused, and changes
      nothing. */
  lemma InstallTwiceFails(w: World, src: PluginSource, manifestPath: string, updateUrl: Option<string>,
                                             again: string, againUrl: Option<string>)
    requires InstallPlugin(w, src, manifestPath, updateUrl).outcome == Done
    ensures var installed := InstallPlugin(w, src, manifestPath, updateUrl).world;
            InstallPlugin(installed, src, again, againUrl)
              == Step(installed, Failed(PluginAlreadyInstalled(src.manifest.name)), [])
  {
  }

  /** After a successful removal the plugin is gone: removing it again
      reports `PluginNotFoundError` and changes nothing. */
  lemma RemoveTwiceFails(w: World, name: string)
    requires Remove(w, name).outcome == Done
    ensures var removed := Remove(w, name).world;
            Remove(removed, name) == Step(removed, Failed(PluginNotFound(name)), [])
  {
  }

  /** An install whose copy fails has already recorded the plugin; the record
      names a file that is not there, so removing the plugin fails too, and
      the entry stays. */
  lemma FailedCopyBlocksRemove(w: World, src: PluginSource, manifestPath: string, updateUrl: Option<string>, missing: Path)
    ensures InstallPlugin(w, src, manifestPath, updateUrl).outcome == Failed(OsError(missing)) ==>
            var installed := InstallPlugin(w, src, manifestPath, updateUrl).world;
            var removed := Remove(installed, src.manifest.name);
            && src.manifest.name in PluginTable(installed.live).value
            && removed.outcome.Failed? && removed.outcome.error.OsError?
            && removed.world.live == installed.live
  {
    var installed := InstallPlugin(w, src, manifestPath, updateUrl);
    if installed.outcome == Failed(OsError(missing)) {
      var plan := Validate(w, src).value;
      var table := PluginTable(installed.world.live).value;
      assert table[src.manifest.name].files == Dests(plan.copies);
      assert missing in Elems(table[src.manifest.name].files) && missing !in installed.world.files;
    }
  }

  /** A plugin installed from a local manifest has no update URL, so updating
      it does nothing. */
  lemma UpdateOfLocalInstallIsNoop(w: World, env: Env, ref: string, tmp: string, later: Env, tmp': string)
    requires ref in env.local && env.local[ref].Some?
    requires Install(w, env, ref, tmp).outcome == Done
    ensures var installed := Install(w, env, ref, tmp).world;
            Update(installed, later, env.local[ref].value.manifest.name, tmp') == Step(installed, Done, [])
  {
  }

  /** The user layer plays no part in an accepted install: the install writes
      it over. */
  lemma InstallOverwritesUserLayer(w: World, user: Layer, src: PluginSource, manifestPath: string, updateUrl: Option<string>)
    requires Validate(w, src).Ok?
    ensures InstallPlugin(w.(user := user), src, manifestPath, updateUrl) == InstallPlugin(w, src, manifestPath, updateUrl)
  {
    assert Present(w.(user := user)) == Present(w);
    assert Validate(w.(user := user), src) == Validate(w, src);
  }

  /** Where the manifest was read from shows only in the record's `path`:
      the checks, the copies, the outcome and every other record field are the
      same. */
  lemma ManifestPathOnlyInRecord(w: World, src: PluginSource, path: string, path': string, updateUrl: Option<string>)
    ensures var first := InstallPlugin(w, src, path, updateUrl);
            var second := InstallPlugin(w, src, path', updateUrl);
            && second.outcome == first.outcome
            && second.world.files == first.world.files && second.world.dirs == first.world.dirs
            && (Validate(w, src).Ok? ==>
                  var table := PluginTable(first.world.live).value;
                  && src.manifest.name in table && table[src.manifest.name].path == path
                  && PluginTable(second.world.live) == Some(table[src.manifest.name := table[src.manifest.name].(path := path')]))
  {
    if Validate(w, src).Ok? {
      var plan := Validate(w, src).value;
      var name := src.manifest.name;
      var record := PluginRecord(path, Dests(plan.copies), name, updateUrl);
      assert plan.table[name := record][name := record.(path := path')] == plan.table[name := record.(path := path')];
    }
  }

  /** Updating a plugin installed from a clone URL, when the upstream serves
      the same manifest and tree and the registry does not list the URL, is a
      fresh install from the new clone: the same files and the same record,
      except that the record names the new clone's manifest. Only when both
      clones used the same directory is the world exactly as the install left
      it. */
  lemma UpdateFromUnchangedUpstream(w: World, env: Env, url: string, tmp: string, tmp': string)
    requires url !in env.local
    requires url in env.remotes && env.remotes[url].plugin.Some?
    requires TextSetting(w.live, RepoPathKey).Some?
    requires var repo := TextSetting(w.live, RepoPathKey).value;
             repo in env.remotes && env.remotes[repo].registry.Some? && url !in env.remotes[repo].registry.value
    requires url != ""
    requires InstallFromGit(w, env, url, tmp).outcome == Done
    ensures var installed := InstallFromGit(w, env, url, tmp).world;
            var name := env.remotes[url].plugin.value.manifest.name;
            var updated := Update(installed, env, name, tmp');
            var table := PluginTable(installed.live).value;
            && updated.outcome == Done
            && updated.world == InstallFromGit(w, env, url, tmp').world
            && updated.world.files == installed.files && updated.world.dirs == installed.dirs
            && name in table
            && PluginTable(updated.world.live) == Some(table[name := table[name].(path := ManifestIn(tmp'))])
            && (tmp' == tmp ==> updated.world == installed)
  {
    var src := env.remotes[url].plugin.value;
    var name := src.manifest.name;
    var installed := InstallPlugin(w, src, ManifestIn(tmp), Some(url));
    assert InstallFromGit(w, env, url, tmp).world == installed.world;
    var plan := Validate(w, src).value;
    assert PluginTable(installed.world.live).value[name].updateUrl == Some(url);
    InstallThenRemoveRestores(w, src, ManifestIn(tmp), Some(url));
    var removed := Remove(installed.world, name);
    var w' := w.(user := Mapping(w.live));
    assert removed.world == w';
    InstallOverwritesUserLayer(w, Mapping(w.live), src, ManifestIn(tmp'), Some(url));
    assert TextSetting(w'.live, RepoPathKey) == TextSetting(w.live, RepoPathKey);
    var fromRepo := InstallFromRepo(w', env, url, tmp');
    assert fromRepo.outcome == Failed(PluginNotInRepo(url));
    var reinstalled := Install(w', env, url, tmp');
    assert reinstalled.world == InstallFromGit(w', env, url, tmp').world;
    assert reinstalled.world == InstallPlugin(w, src, ManifestIn(tmp'), Some(url)).world;
    ManifestPathOnlyInRecord(w, src, ManifestIn(tmp), ManifestIn(tmp'), Some(url));
  }
}

=== FILE: staging.dfy ===
/** File selection for an install: which files of a plugin's source tree are
    copied, and where they go in the host's plugin directory. */
module Staging {
  import opened Wrappers
  import opened Disk

  /** A parsed plugin manifest (`plugin.yml`). `root` is not a field here: the
      walk of a `PluginSource` is already the walk of the resolved root. */
  datatype Manifest = Manifest(name: string, includes: seq<Path>, requirements: Option<string>)

  predicate DistinctRels(walk: seq<SourceFile>) {
    forall i, j :: 0 <= i < j < |walk| ==> walk[i].rel != walk[j].rel
  }

  /** What `os.walk` of the plugin root yields: every file of the tree once,
      as a root-relative path. */
  type Walk = walk: seq<SourceFile> | DistinctRels(walk) witness []

  /** A manifest together with the tree its root names. */
  datatype PluginSource = PluginSource(manifest: Manifest, walk: Walk)

  predicate EndsWithPy(name: string) {
    |name| >= 3 && name[|name| - 3..] == ".py"
  }

  /** A walked file is copied when its name ends in `.py` or its
      root-relative path is listed in the manifest's `include`. */
  predicate Wanted(f: SourceFile, includes: seq<Path>) {
    EndsWithPy(FileName(f.rel)) || f.rel in includes
  }

  /** The wanted files of a walk, in walk order. */
  function Select(walk: seq<SourceFile>, includes: seq<Path>): (picked: seq<SourceFile>)
    ensures forall f :: f in picked <==> f in walk && Wanted(f, includes)
    decreases |walk|
  {
    if walk == [] then []
    else if Wanted(walk[0], includes) then [walk[0]] + Select(walk[1..], includes)
    else Select(walk[1..], includes)
  }

  /** Selection keeps root-relative paths distinct. */
  lemma {:induction false} SelectKeepsDistinct(walk: seq<SourceFile>, includes: seq<Path>)
    requires DistinctRels(walk)
    ensures DistinctRels(Select(walk, includes))
    decreases |walk|
  {
    if walk != [] {
      assert DistinctRels(walk[1..]);
      SelectKeepsDistinct(walk[1..], includes);
      var rest := Select(walk[1..], includes);
      forall f | f in rest ensures f.rel != walk[0].rel {
        var k :| 0 <= k < |walk| - 1 && walk[1..][k] == f;
        assert walk[k + 1] == f;
      }
    }
  }

  lemma PrefixInjective(dir: Path, a: Path, b: Path)
    ensures dir + a == dir + b ==> a == b
  {
    if dir + a == dir + b {
      assert a == (dir + a)[|dir|..];
      assert b == (dir + b)[|dir|..];
    }
  }

  /** The copy map of an install into `pluginsDir`. */
  function CopyMap(walk: seq<SourceFile>, includes: seq<Path>, pluginsDir: Path): (copies: seq<Copy>)
    ensures forall i :: 0 <= i < |copies| ==>
              copies[i].source in walk && Wanted(copies[i].source, includes)
              && copies[i].dest == pluginsDir + copies[i].source.rel
    ensures forall f :: f in walk && Wanted(f, includes) ==> Copy(f, pluginsDir + f.rel) in copies
    ensures DistinctRels(walk) ==> AllDistinct(Dests(copies))
  {
    var picked := Select(walk, includes);
    assert DistinctRels(walk) ==> DistinctRels(picked) by {
      if DistinctRels(walk) { SelectKeepsDistinct(walk, includes); }
    }
    var copies := seq(|picked|, i requires 0 <= i < |picked| => Copy(picked[i], pluginsDir + picked[i].rel));
    assert forall f :: f in picked ==> Copy(f, pluginsDir + f.rel) in copies by {
      forall f | f in picked ensures Copy(f, pluginsDir + f.rel) in copies {
        var k :| 0 <= k < |picked| && picked[k] == f;
        assert copies[k] == Copy(f, pluginsDir + f.rel);
      }
    }
    assert DistinctRels(walk) ==> AllDistinct(Dests(copies)) by {
      if DistinctRels(walk) {
        forall i, j | 0 <= i < j < |copies| ensures Dests(copies)[i] != Dests(copies)[j] {
          PrefixInjective(pluginsDir, picked[i].rel, picked[j].rel);
        }
      }
    }
    copies
  }

  /** The position of the first copy-map entry whose destination already
      exists, if there is one. */
  function FirstCollision(copies: seq<Copy>, present: set<Path>): (r: Option<nat>)
    ensures r.None? <==> forall i :: 0 <= i < |copies| ==> copies[i].dest !in present
    ensures r.Some? ==> r.value < |copies| && copies[r.value].dest in present
    ensures r.Some? ==> forall j :: 0 <= j < r.value ==> copies[j].dest !in present
    decreases |copies|
  {
    if copies == [] then None
    else if copies[0].dest in present then Some(0)
    else match FirstCollision(copies[1..], present)
      case None => None
      case Some(i) => Some(i + 1)
  }
}

=== FILE: tarkus.dfy ===
/** The install / remove / update engine as transitions over an abstract
    world: the configuration store, the files and directories on disk, and
    the outside services (local paths, clonable URLs) as a given environment. */
module Tarkus {
  import opened Wrappers
  import opened Disk
  import opened Staging
  import opened Config

  /** How an operation can fail. The first five are the engine's own error
      classes; the rest stand for the Python exceptions that escape it. */
  datatype Error =
    | PluginAlreadyInstalled(name: string)
    | PluginFileExists(relPath: Path)   // relative to the plugins directory
    | PluginNotFound(name: string)
    | FailedCloningRepo(url: string)
    | PluginNotInRepo(name: string)
    | BadSetting(key: string)           // AttributeError / TypeError reading a setting
    | UnknownPlugin(name: string)       // the KeyError `update` lets escape
    | Unreadable(file: string)          // IOError opening a manifest or the registry index
    | OsError(path: Path)               // `os.unlink` or `shutil.copy` failed
    | NullRequirements                  // raised only by the install as written; see Findings

  datatype Outcome = Done | Failed(error: Error)

  /** The persisted base and user layers, the live merged view the process
      works on, and the disk. */
  datatype World = World(base: Settings, user: Layer, live: Settings, files: Files, dirs: set<Path>)

  /** What an operation leaves behind. The world is the one AFTER the call even
      when it failed: nothing is ever rolled back. `clones` lists the URLs it
      tried to clone, in order. */
  datatype Step = Step(world: World, outcome: Outcome, clones: seq<string>)

  /** What a clone yields: the manifest at `plugin.yml` and the registry index
      at `repo.yml`, each when present and readable. */
  datatype Remote = Remote(plugin: Option<PluginSource>, registry: Option<map<string, string>>)

  /** The outside world an install consults. */
  datatype Env = Env(
    local: map<string, Option<PluginSource>>, // references that exist as paths; None when not a readable manifest
    remotes: map<string, Remote>)             // URLs whose clone succeeds

  const ManifestFile: string := "plugin.yml"
  const RegistryFile: string := "repo.yml"

  /** Where a clone's manifest lies: the fresh temporary directory `tmp` that
      the clone went into, joined with `plugin.yml`. */
  function ManifestIn(tmp: string): string {
    tmp + "/" + ManifestFile
  }

  /** The live view is what loading the two persisted layers gives. */
  predicate Coherent(w: World) {
    w.live == Merge(w.base, w.user)
  }

  /** Process start: both layers are read and merged. */
  function Load(base: Settings, user: Layer, files: Files, dirs: set<Path>): (w: World)
    ensures w.base == base && w.user == user && w.files == files && w.dirs == dirs
    ensures Coherent(w)
    ensures w.live.Keys >= base.Keys
    ensures user.Mapping? ==> forall k :: k in user.entries ==> k in w.live && w.live[k] == user.entries[k]
  {
    World(base, user, Merge(base, user), files, dirs)
  }

  /** Leaving a config transaction: the whole live view is written to the
      user layer, whatever happened inside. */
  function Persist(w: World): (p: World)
    ensures p.user == Mapping(w.live)
    ensures p.base == w.base && p.live == w.live && p.files == w.files && p.dirs == w.dirs
    // what was written reloads to the same view
    ensures Coherent(w) ==> Coherent(p)
  {
    assert Coherent(w) ==> Coherent(w.(user := Mapping(w.live))) by {
      if Coherent(w) { ReloadAfterPersist(w.base, w.live); }
    }
    w.(user := Mapping(w.live))
  }

  lemma PersistKeepsCoherence(w: World, live: Settings)
    requires Coherent(w) && live.Keys >= w.live.Keys
    ensures Coherent(Persist(w.(live := live)))
  {
    ReloadAfterPersist(w.base, live);
  }

  function PluginsDir(idaPath: string): Path {
    [idaPath, "plugins"]
  }

  /** `ida_path` joined with `plugins`. */
  function PluginsPath(live: Settings): (r: Result<Path, Error>)
    ensures r.Ok? <==> IdaPathKey in live && live[IdaPathKey].Text?
    ensures r.Ok? ==> r.value == PluginsDir(live[IdaPathKey].text)
    ensures r.Err? ==> r.error == BadSetting(IdaPathKey)
  {
    match TextSetting(live, IdaPathKey)
    case Some(ida) => Ok(PluginsDir(ida))
    case None => Err(BadSetting(IdaPathKey))
  }

  /** A transaction that sets one text setting. */
  function SetText(w: World, key: string, value: string): (s: Step)
    ensures s.outcome == Done && s.clones == []
    ensures TextSetting(s.world.live, key) == Some(value)
    ensures s.world.live.Keys == w.live.Keys + {key}
    ensures forall k :: k in w.live && k != key ==> s.world.live[k] == w.live[k]
    ensures s.world.user == Mapping(s.world.live)
    ensures s.world.base == w.base && s.world.files == w.files && s.world.dirs == w.dirs
    ensures Coherent(w) ==> Coherent(s.world)
  {
    var live := w.live[key := Text(value)];
    assert Coherent(w) ==> Coherent(Persist(w.(live := live))) by {
      if Coherent(w) { PersistKeepsCoherence(w, live); }
    }
    Step(Persist(w.(live := live)), Done, [])
  }

  /** `init <ida-path>`. */
  function Init(w: World, idaPath: string): (s: Step)
    ensures s.outcome == Done && s.clones == []
    ensures PluginsPath(s.world.live) == Ok(PluginsDir(idaPath))
    ensures PluginTable(s.world.live) == PluginTable(w.live)
    ensures forall k :: k in w.live && k != IdaPathKey ==> k in s.world.live && s.world.live[k] == w.live[k]
    // exactly one setting changes
    ensures s.world.live == w.live[IdaPathKey := Text(idaPath)]
    ensures s.world.user == Mapping(s.world.live)
    ensures s.world.base == w.base && s.world.files == w.files && s.world.dirs == w.dirs
    ensures Coherent(w) ==> Coherent(s.world)
  {
    SetText(w, IdaPathKey, idaPath)
  }

  /** `repo <repo-path>`. */
  function Repo(w: World, repoPath: string): (s: Step)
    ensures s.outcome == Done && s.clones == []
    ensures TextSetting(s.world.live, RepoPathKey) == Some(repoPath)
    ensures PluginTable(s.world.live) == PluginTable(w.live) && PluginsPath(s.world.live) == PluginsPath(w.live)
    ensures forall k :: k in w.live && k != RepoPathKey ==> k in s.world.live && s.world.live[k] == w.live[k]
    // exactly one setting changes
    ensures s.world.live == w.live[RepoPathKey := Text(repoPath)]
    ensures s.world.user == Mapping(s.world.live)
    ensures s.world.base == w.base && s.world.files == w.files && s.world.dirs == w.dirs
    ensures Coherent(w) ==> Coherent(s.world)
  {
    SetText(w, RepoPathKey, repoPath)
  }

  /** Everything that exists on disk, as `os.path.exists` sees it. */
  function Present(w: World): set<Path> {
    w.files.Keys + w.dirs
  }

  /** The validated parts of an install: the current plugins table and the
      copy map. */
  datatype Plan = Plan(table: map<string, PluginRecord>, copies: seq<Copy>)

  /** The checks an install makes before it writes anything. */
  function Validate(w: World, src: PluginSource): (r: Result<Plan, Error>)
    ensures r == Err(BadSetting(PluginsKey)) <==> PluginTable(w.live).None?
    ensures r == Err(PluginAlreadyInstalled(src.manifest.name)) <==>
              PluginTable(w.live).Some? && src.manifest.name in PluginTable(w.live).value
    ensures r == Err(BadSetting(IdaPathKey)) <==>
              && PluginTable(w.live).Some? && src.manifest.name !in PluginTable(w.live).value
              && (exists f :: f in src.walk && Wanted(f, src.manifest.includes))
              && PluginsPath(w.live).Err?
    ensures r.Err? ==> r.error in {BadSetting(PluginsKey), PluginAlreadyInstalled(src.manifest.name), BadSetting(IdaPathKey)}
                       || r.error.PluginFileExists?
    ensures r.Err? && r.error.PluginFileExists? ==>
              && PluginTable(w.live).Some? && src.manifest.name !in PluginTable(w.live).value
              && PluginsPath(w.live).Ok?
              && PluginsPath(w.live).value + r.error.relPath in Present(w)
              && exists f :: f in src.walk && Wanted(f, src.manifest.includes) && f.rel == r.error.relPath
    ensures r.Ok? ==> PluginTable(w.live) == Some(r.value.table) && src.manifest.name !in r.value.table
    ensures r.Ok? ==> forall i :: 0 <= i < |r.value.copies| ==>
              && r.value.copies[i].dest !in Present(w)
              && r.value.copies[i].source in src.walk
              && Wanted(r.value.copies[i].source, src.manifest.includes)
              && PluginsPath(w.live).Ok?
              && r.value.copies[i].dest == PluginsPath(w.live).value + r.value.copies[i].source.rel
    ensures r.Ok? ==> forall f :: f in src.walk && Wanted(f, src.manifest.includes) ==>
              PluginsPath(w.live).Ok? && Copy(f, PluginsPath(w.live).value + f.rel) in r.value.copies
    ensures r.Ok? ==> AllDistinct(Dests(r.value.copies))
  {
    var name := src.manifest.name;
    match PluginTable(w.live)
    case None => Err(BadSetting(PluginsKey))
    case Some(table) =>
      if name in table then Err(PluginAlreadyInstalled(name))
      else if Select(src.walk, src.manifest.includes) == [] then
        Ok(Plan(table, []))
      else
        var g := Select(src.walk, src.manifest.includes)[0];
        assert g in src.walk && Wanted(g, src.manifest.includes);
        match PluginsPath(w.live)
        case Err(e) => Err(e)
        case Ok(dir) =>
          var copies := CopyMap(src.walk, src.manifest.includes, dir);
          match FirstCollision(copies, Present(w))
          case Some(i) => Err(PluginFileExists(copies[i].source.rel))
          case None => Ok(Plan(table, copies))
  }

  /** The mutating half of an accepted install: the record is written and
      persisted first, then the files are copied. */
  function Apply(w: World, src: PluginSource, plan: Plan, manifestPath: string, updateUrl: Option<string>): (s: Step)
    requires forall i :: 0 <= i < |plan.copies| ==> plan.copies[i].dest !in w.files && plan.copies[i].dest !in w.dirs
    requires AllDistinct(Dests(plan.copies))
    ensures s.clones == [] && s.world.base == w.base && s.world.dirs == w.dirs
    ensures Coherent(w) ==> Coherent(s.world)
    ensures var record := PluginRecord(manifestPath, Dests(plan.copies), src.manifest.name, updateUrl);
            && s.world.live == WithTable(w.live, plan.table[src.manifest.name := record])
            && PluginTable(s.world.live) == Some(plan.table[src.manifest.name := record])
            && s.world.user == Mapping(s.world.live)
    ensures s.outcome.Done? <==> forall i :: 0 <= i < |plan.copies| ==> Parent(plan.copies[i].dest) in w.dirs
    ensures s.outcome.Done? ==> s.world.files.Keys == w.files.Keys + Elems(Dests(plan.copies))
    ensures s.outcome.Done? ==>
              forall i :: 0 <= i < |plan.copies| ==>
                   plan.copies[i].dest in s.world.files && s.world.files[plan.copies[i].dest] == plan.copies[i].source.content
    ensures forall p :: p in w.files ==> p in s.world.files && s.world.files[p] == w.files[p]
    // whatever is created is a destination, and so is in the record
    ensures s.world.files.Keys <= w.files.Keys + Elems(Dests(plan.copies))
    ensures s.outcome.Failed? ==>
              && s.outcome.error.OsError?
              && s.outcome.error.path in Dests(plan.copies)
              && Parent(s.outcome.error.path) !in w.dirs
              && s.outcome.error.path !in s.world.files
  {
    var record := PluginRecord(manifestPath, Dests(plan.copies), src.manifest.name, updateUrl);
    var live := WithTable(w.live, plan.table[src.manifest.name := record]);
    var recorded := Persist(w.(live := live));
    assert Coherent(w) ==> Coherent(recorded) by {
      if Coherent(w) { PersistKeepsCoherence(w, live); }
    }
    assert forall p :: p in w.files ==> p !in Dests(plan.copies);
    var copied := CopyAll(recorded.files, recorded.dirs, plan.copies);
    CopyAllDistinct(recorded.files, recorded.dirs, plan.copies);
    var after := recorded.(files := copied.0);
    match copied.1
    case Some(p) =>
      assert p !in w.files;
      Step(after, Failed(OsError(p)), [])
    case None => Step(after, Done, [])
  }

  /** Installing from a manifest at `manifestPath`: validate, record the
      plugin in the config (persisted at once), then copy the files. The
      dependency install that follows has no effect the model can see. */
  function InstallPlugin(w: World, src: PluginSource, manifestPath: string, updateUrl: Option<string>): (s: Step)
    ensures s.clones == [] && s.world.base == w.base && s.world.dirs == w.dirs
    ensures Coherent(w) ==> Coherent(s.world)
    // a rejected install changes nothing
    ensures Validate(w, src).Err? ==> s == Step(w, Failed(Validate(w, src).error), [])
    // an accepted one records the plugin and persists that, even if a copy then fails
    ensures Validate(w, src).Ok? ==>
              var plan := Validate(w, src).value;
              var record := PluginRecord(manifestPath, Dests(plan.copies), src.manifest.name, updateUrl);
              && s.world.live == WithTable(w.live, plan.table[src.manifest.name := record])
              && PluginTable(s.world.live) == Some(plan.table[src.manifest.name := record])
              && s.world.user == Mapping(s.world.live)
    ensures s.outcome.Done? <==>
              && Validate(w, src).Ok?
              && forall i :: 0 <= i < |Validate(w, src).value.copies| ==>
                   Parent(Validate(w, src).value.copies[i].dest) in w.dirs
    // every destination then holds a copy of its source
    ensures s.outcome.Done? ==>
              var copies := Validate(w, src).value.copies;
              && s.world.files.Keys == w.files.Keys + Elems(Dests(copies))
              && forall i :: 0 <= i < |copies| ==>
                   copies[i].dest in s.world.files && s.world.files[copies[i].dest] == copies[i].source.content
    // no file that existed is touched, and nothing but a recorded destination is created
    ensures forall p :: p in w.files ==> p in s.world.files && s.world.files[p] == w.files[p]
    ensures Validate(w, src).Ok? ==> s.world.files.Keys <= w.files.Keys + Elems(Dests(Validate(w, src).value.copies))
    // an accepted install can only fail in the copy loop
    ensures Validate(w, src).Ok? && s.outcome.Failed? ==> s.outcome.error.OsError?
    ensures s.outcome.Failed? && s.outcome.error.OsError? ==>
              && Validate(w, src).Ok?
              && s.outcome.error.path in Dests(Validate(w, src).value.copies)
              && Parent(s.outcome.error.path) !in w.dirs
              && s.outcome.error.path !in s.world.files
    ensures s.outcome != Failed(NullRequirements)
  {
    match Validate(w, src)
    case Err(e) => Step(w, Failed(e), [])
    case Ok(plan) => Apply(w, src, plan, manifestPath, updateUrl)
  }

  /** `_install_from_git`: clone `url` into the fresh temporary directory
      `tmp`, install the `plugin.yml` at its top, recording `url` as the
      plugin's update URL. */
  function InstallFromGit(w: World, env: Env, url: string, tmp: string): (s: Step)
    ensures s.clones == [url] && s.world.base == w.base && s.world.dirs == w.dirs
    ensures Coherent(w) ==> Coherent(s.world)
    ensures url !in env.remotes ==> s.world == w && s.outcome == Failed(FailedCloningRepo(url))
    ensures url in env.remotes && env.remotes[url].plugin.None? ==> s.world == w && s.outcome == Failed(Unreadable(ManifestFile))
    ensures url in env.remotes && env.remotes[url].plugin.Some? ==>
              var installed := InstallPlugin(w, env.remotes[url].plugin.value, ManifestIn(tmp), Some(url));
              s.world == installed.world && s.outcome == installed.outcome
    ensures !(s.outcome.Failed? && s.outcome.error.PluginNotInRepo?)
  {
    if url !in env.remotes then Step(w, Failed(FailedCloningRepo(url)), [url])
    else match env.remotes[url].plugin
      case None => Step(w, Failed(Unreadable(ManifestFile)), [url])
      case Some(src) =>
        var installed := InstallPlugin(w, src, ManifestIn(tmp), Some(url));
        Step(installed.world, installed.outcome, [url])
  }

  /** `_install_from_repo`: clone the registry at `repo_path`, look `name` up
      in its index, and install from the URL it maps to, cloned into `tmp`. */
  function InstallFromRepo(w: World, env: Env, name: string, tmp: string): (s: Step)
    ensures s.world.base == w.base && s.world.dirs == w.dirs
    ensures Coherent(w) ==> Coherent(s.world)
    ensures TextSetting(w.live, RepoPathKey).None? ==> s == Step(w, Failed(BadSetting(RepoPathKey)), [])
    ensures TextSetting(w.live, RepoPathKey).Some? ==>
              |s.clones| > 0 && s.clones[0] == TextSetting(w.live, RepoPathKey).value
    ensures TextSetting(w.live, RepoPathKey).Some? && TextSetting(w.live, RepoPathKey).value !in env.remotes ==>
              s == Step(w, Failed(FailedCloningRepo(TextSetting(w.live, RepoPathKey).value)), s.clones) && |s.clones| == 1
    // an unreadable index is final, with nothing changed
    ensures TextSetting(w.live, RepoPathKey).Some? ==>
              var repo := TextSetting(w.live, RepoPathKey).value;
              repo in env.remotes && env.remotes[repo].registry.None? ==>
                s == Step(w, Failed(Unreadable(RegistryFile)), [repo])
    // a name missing from the index is reported, with nothing changed, and only then
    ensures TextSetting(w.live, RepoPathKey).Some? ==>
              var repo := TextSetting(w.live, RepoPathKey).value;
              repo in env.remotes && env.remotes[repo].registry.Some? && name !in env.remotes[repo].registry.value ==>
                s == Step(w, Failed(PluginNotInRepo(name)), [repo])
    ensures s.outcome.Failed? && s.outcome.error.PluginNotInRepo? ==>
              && s.outcome.error.name == name && s.world == w && |s.clones| == 1
              && var repo := TextSetting(w.live, RepoPathKey).value;
                 repo in env.remotes && env.remotes[repo].registry.Some?
                 && name !in env.remotes[repo].registry.value
    ensures TextSetting(w.live, RepoPathKey).Some? ==>
              var repo := TextSetting(w.live, RepoPathKey).value;
              repo in env.remotes && env.remotes[repo].registry.Some? && name in env.remotes[repo].registry.value ==>
                var fetched := InstallFromGit(w, env, env.remotes[repo].registry.value[name], tmp);
                s == Step(fetched.world, fetched.outcome, [repo] + fetched.clones)
  {
    match TextSetting(w.live, RepoPathKey)
    case None => Step(w, Failed(BadSetting(RepoPathKey)), [])
    case Some(repo) =>
      if repo !in env.remotes then Step(w, Failed(FailedCloningRepo(repo)), [repo])
      else match env.remotes[repo].registry
        case None => Step(w, Failed(Unreadable(RegistryFile)), [repo])
        case Some(index) =>
          if name !in index then Step(w, Failed(PluginNotInRepo(name)), [repo])
          else
            var fetched := InstallFromGit(w, env, index[name], tmp);
            Step(fetched.world, fetched.outcome, [repo] + fetched.clones)
  }

  /** `install <ref>`: a path on disk first, then the registry, then `ref`
      itself as a clone URL. Only `PluginNotInRepo` moves on to the last
      step; every other failure of the registry step is final. At most one
      plugin is cloned, into the fresh temporary directory `tmp`. */
  function Install(w: World, env: Env, ref: string, tmp: string): (s: Step)
    ensures s.world.base == w.base && s.world.dirs == w.dirs
    ensures Coherent(w) ==> Coherent(s.world)
    // a local manifest is installed directly, with no clone and no update URL
    ensures ref in env.local ==> s.clones == []
    ensures ref in env.local && env.local[ref].Some? ==> s == InstallPlugin(w, env.local[ref].value, ref, None)
    ensures ref in env.local && env.local[ref].None? ==> s == Step(w, Failed(Unreadable(ref)), [])
    // anything else consults the registry first
    ensures ref !in env.local && TextSetting(w.live, RepoPathKey).Some? ==>
              |s.clones| > 0 && s.clones[0] == TextSetting(w.live, RepoPathKey).value
    // a failed registry clone is final: no direct clone follows
    ensures ref !in env.local && TextSetting(w.live, RepoPathKey).Some? && TextSetting(w.live, RepoPathKey).value !in env.remotes ==>
              s == Step(w, Failed(FailedCloningRepo(TextSetting(w.live, RepoPathKey).value)), [TextSetting(w.live, RepoPathKey).value])
    // the direct clone of `ref` happens exactly when the registry lacks it
    ensures ref !in env.local ==>
              var fromRepo := InstallFromRepo(w, env, ref, tmp);
              if fromRepo.outcome == Failed(PluginNotInRepo(ref)) then
                var direct := InstallFromGit(w, env, ref, tmp);
                s == Step(direct.world, direct.outcome, fromRepo.clones + [ref])
              else s == fromRepo
    // in particular, a name the readable index lacks is cloned directly
    ensures ref !in env.local && TextSetting(w.live, RepoPathKey).Some? ==>
              var repo := TextSetting(w.live, RepoPathKey).value;
              repo in env.remotes && env.remotes[repo].registry.Some? && ref !in env.remotes[repo].registry.value ==>
                var direct := InstallFromGit(w, env, ref, tmp);
                s == Step(direct.world, direct.outcome, [repo, ref])
    // an unreadable index is final
    ensures ref !in env.local && TextSetting(w.live, RepoPathKey).Some? ==>
              var repo := TextSetting(w.live, RepoPathKey).value;
              repo in env.remotes && env.remotes[repo].registry.None? ==>
                s == Step(w, Failed(Unreadable(RegistryFile)), [repo])
    // the registry's miss is never what the caller sees
    ensures !(s.outcome.Failed? && s.outcome.error.PluginNotInRepo?)
  {
    if ref in env.local then
      match env.local[ref]
      case None => Step(w, Failed(Unreadable(ref)), [])
      case Some(src) => InstallPlugin(w, src, ref, None)
    else
      var fromRepo := InstallFromRepo(w, env, ref, tmp);
      if fromRepo.outcome.Failed? && fromRepo.outcome.error.PluginNotInRepo? then
        var direct := InstallFromGit(fromRepo.world, env, ref, tmp);
        Step(direct.world, direct.outcome, fromRepo.clones + direct.clones)
      else fromRepo
  }

  /** `remove <name>`: unlink every recorded file, then delete the entry in a
      transaction. A recorded file that is missing stops the removal with the
      earlier files already gone and the entry kept. */
  function Remove(w: World, name: string): (s: Step)
    ensures s.clones == [] && s.world.base == w.base && s.world.dirs == w.dirs
    ensures Coherent(w) ==> Coherent(s.world)
    ensures PluginTable(w.live).None? ==> s == Step(w, Failed(BadSetting(PluginsKey)), [])
    ensures PluginTable(w.live).Some? && name !in PluginTable(w.live).value ==>
              s == Step(w, Failed(PluginNotFound(name)), [])
    ensures PluginTable(w.live).Some? && name in PluginTable(w.live).value ==>
              var table := PluginTable(w.live).value;
              var recorded := table[name].files;
              && (s.outcome.Done? <==> AllDistinct(recorded) && Elems(recorded) <= w.files.Keys)
              && (s.outcome.Done? ==>
                    && s.world.files == w.files - Elems(recorded)
                    && s.world.live == WithTable(w.live, table - {name})
                    && PluginTable(s.world.live) == Some(table - {name})
                    && s.world.user == Mapping(s.world.live))
              && (s.outcome.Failed? ==>
                    && s.outcome.error.OsError?
                    && s.outcome.error.path in recorded && s.outcome.error.path !in s.world.files
                    && (exists k :: UnlinkStoppedAt(w.files, recorded, k, s.world.files) && recorded[k] == s.outcome.error.path)
                    && s.world.live == w.live && s.world.user == w.user)
              && forall p :: p in w.files && p !in recorded ==> p in s.world.files && s.world.files[p] == w.files[p]
    ensures s.world.files.Keys <= w.files.Keys
  {
    match PluginTable(w.live)
    case None => Step(w, Failed(BadSetting(PluginsKey)), [])
    case Some(table) =>
      if name !in table then Step(w, Failed(PluginNotFound(name)), [])
      else
        var unlinked := UnlinkAll(w.files, table[name].files);
        match unlinked.1
        case Some(p) => Step(w.(files := unlinked.0), Failed(OsError(p)), [])
        case None =>
          var live := WithTable(w.live, table - {name});
          assert Coherent(w) ==> Coherent(Persist(w.(files := unlinked.0, live := live))) by {
            if Coherent(w) { PersistKeepsCoherence(w.(files := unlinked.0), live); }
          }
          Step(Persist(w.(files := unlinked.0, live := live)), Done, [])
  }

  /** Python truthiness of a stored update URL. */
  predicate Truthy(url: Option<string>) {
    url.Some? && url.value != ""
  }

  /** `update <name>`: remove the plugin and install it again from its update
      URL (cloned into `tmp`); a plugin without one is left alone. */
  function Update(w: World, env: Env, name: string, tmp: string): (s: Step)
    ensures s.world.base == w.base && s.world.dirs == w.dirs
    ensures Coherent(w) ==> Coherent(s.world)
    ensures PluginTable(w.live).None? ==> s == Step(w, Failed(BadSetting(PluginsKey)), [])
    ensures PluginTable(w.live).Some? && name !in PluginTable(w.live).value ==>
              s == Step(w, Failed(UnknownPlugin(name)), [])
    ensures PluginTable(w.live).Some? && name in PluginTable(w.live).value ==>
              var url := PluginTable(w.live).value[name].updateUrl;
              && (!Truthy(url) ==> s == Step(w, Done, []))
              && (Truthy(url) ==>
                    var removed := Remove(w, name);
                    && (removed.outcome.Failed? ==> s == removed)
                    && (removed.outcome.Done? ==> s == Install(removed.world, env, url.value, tmp)))
  {
    match PluginTable(w.live)
    case None => Step(w, Failed(BadSetting(PluginsKey)), [])
    case Some(table) =>
      if name !in table then Step(w, Failed(UnknownPlugin(name)), [])
      else if !Truthy(table[name].updateUrl) then Step(w, Done, [])
      else
        var removed := Remove(w, name);
        if removed.outcome.Failed? then removed
        else Install(removed.world, env, table[name].updateUrl.value, tmp)
  }
}

=== FILE: wrappers.dfy ===
/** Failure-carrying values used in place of Python's `None` and raised
    exceptions. */
module Wrappers {
  datatype Option<+T> = None | Some(value: T)

  datatype Result<+T, +E> = Ok(value: T) | Err(error: E)
}
